=== FILE: README.md ===
# Compound v2 subgraph: account-position accounting core

A Dafny model of `src/mappings/helpers.ts` of the Compound v2 subgraph: the
helpers every supply, borrow, repay, redeem and liquidation handler uses to
keep per-account positions (`AccountCToken`) and to value an account's
portfolio.

- `decimal.dfy` — `exponentToBigDecimal`: 10^n built by repeated
  multiplication, against the reference `Pow10`. `BigDecimal` is modelled as
  `real`, so every amount in the model is exact; the host's rounding is
  listed under "Left out".
- `keys.dfy` — the composite entity ids `marketID-accountID` and
  `accountID-txHash-logIndex`, with `BigInt.toString` modelled as a decimal
  rendering that is proved invertible, so distinct log indices give distinct ids.
- `entities.dfy` — `Account`, `AccountCToken`, `AccountCTokenTransaction`,
  `Market` and the entity `Store` (one map per saved entity type).
- `repository.dfy` — `createAccountCToken`, `createAccount`,
  `getOrCreateAccountCTokenTransaction` and `updateCommonCTokenStats` as pure
  functions from a store to a `Saved(store, record)` pair.
- `balances.dfy` — `supplyBalanceUnderlying`, `borrowBalanceUnderlying` and
  `tokenInEth`.
- `sums.dfy` — the left-to-right sum the aggregation loops compute, with
  append, permutation, zero and sign lemmas.
- `portfolio.dfy` — `totalCollateralValueInEth` and `totalBorrowValueInEth`
  as loop methods, and `health` as a method over them, each proved equal to a
  reference function (`CollateralValue`, `BorrowValue`, `HealthValue`).
- `wrappers.dfy` — `Option`, which stands for the `null` that `health` returns.

Three behaviours of the helpers worth knowing:
- `createAccount` saves unconditionally. An account already stored under the
  same id is replaced by a fresh one.
- `updateCommonCTokenStats` logs the event against the position: the
  parameter named `accountID` of `getOrCreateAccountCTokenTransaction`
  receives the position id (`marketID-accountID`), which keys and owns the record.
- `totalBorrowValueInEth` and `health` look at the market and position tables
  only when `hasBorrowed` is true. Their preconditions therefore require every
  held id to be present only in that case.

## Model

| member | source | states |
|---|---|---|
| `Decimal.ExponentToBigDecimal` | src/mappings/helpers.ts:8-14 | the result is exactly 10^n for n ≥ 0, and 1 for n ≤ 0 because the loop never runs |
| `Decimal.Pow10Add` | src/mappings/helpers.ts:8-14 | scale factors compose: 10^(a+b) = 10^a · 10^b |
| `Decimal.Pow10StrictlyIncreasing` | src/mappings/helpers.ts:8-14 | a larger exponent gives a strictly larger scale factor |
| `Keys.IntRoundTrip` | src/mappings/helpers.ts:89 | the decimal rendering of a log index parses back to the same integer |
| `Keys.TransactionKeySeparatesLogIndex` | src/mappings/helpers.ts:85-89 | two log indices of one transaction with the same owner give the same record id only if they are equal |
| `Keys.PositionKey` | src/mappings/helpers.ts:62 | the position id is the market id, a '-', then the account id |
| `Keys.PositionKeySeparatesAccount` | src/mappings/helpers.ts:62 | within one market, two accounts share a position id only if they are the same account |
| `Keys.TransactionKey` | src/mappings/helpers.ts:85-89 | the transaction id is the owner id, a '-', the hash text, a '-', then the decimal rendering of the log index |
| `Repository.CreateAccountCToken` | src/mappings/helpers.ts:22-42 | id, symbol, market and account come from the arguments; every amount, counter and the accrual block start at zero; `enteredMarket` is false |
| `Repository.CreateAccount` | src/mappings/helpers.ts:44-51 | the new account has zero liquidation counts and has not borrowed; it is saved under its id, replacing any earlier one; no other entity changes |
| `Repository.GetOrCreateAccountCTokenTransaction` | src/mappings/helpers.ts:78-103 | an existing record under the key leaves the store unchanged and is returned; otherwise exactly one record with the given fields is added under the key; the record is in the store afterwards and the transaction table grows by at most one |
| `Repository.UpdateCommonCTokenStats` | src/mappings/helpers.ts:53-76 | an existing position keeps every field except the accrual block, which becomes the event block; a missing one is created with defaults; the position is not saved; a transaction record for the event exists afterwards |
| `Repository.TransactionReplayIsNoOp` | src/mappings/helpers.ts:90-102 | recording the same log entry a second time, even with another timestamp or block, returns the first record and the same store |
| `Repository.DistinctLogEntriesBothRecorded` | src/mappings/helpers.ts:85-100 | recording a second log entry of the same transaction keeps the first record and adds the second |
| `Repository.UpdateReplayIsStable` | src/mappings/helpers.ts:62-75 | processing the same event twice yields the same position and the same store |
| `Balances.SupplyBalanceUnderlying` | src/mappings/helpers.ts:105-110 | dividing the underlying amount by a non-zero exchange rate gives back the cToken balance; zero rate or balance gives zero; non-negative inputs give a non-negative amount |
| `Balances.BorrowBalanceUnderlying` | src/mappings/helpers.ts:112-122 | a zero index snapshot gives zero whatever the stored borrow; otherwise result × snapshot = stored borrow × current index, with no division by zero |
| `Balances.TokenInEth` | src/mappings/helpers.ts:124-126 | a zero collateral factor gives zero; a factor of 1 gives exchange rate × price |
| `Balances.TokenInEthBounded` | src/mappings/helpers.ts:124-126 | for sane market data the discounted token value lies between 0 and exchange rate × price |
| `Balances.CollateralIsDiscountedSupply` | src/mappings/helpers.ts:105-126 | a position's collateral term equals collateral factor × price × its underlying supply |
| `Balances.BorrowBalanceAtSnapshot` | src/mappings/helpers.ts:119-121 | at the snapshot index the normalised borrow equals the stored borrow |
| `Balances.BorrowBalanceAccrues` | src/mappings/helpers.ts:119-121 | when the index has not fallen below the snapshot, a non-negative borrow never shrinks |
| `Balances.BorrowBalanceCompounds` | src/mappings/helpers.ts:119-121 | re-snapshotting at an intermediate index and scaling on gives the same balance as scaling once |
| `Balances.FreshPositionHoldsNothing` | src/mappings/helpers.ts:105-122 | a freshly created position has zero underlying supply and zero borrow in any market |
| `Balances.SupplyExample` | src/mappings/helpers.ts:109 | a balance of 100 at exchange rate 0.02 gives 2 |
| `Balances.BorrowExample` | src/mappings/helpers.ts:119-121 | stored borrow 50, snapshot 1.0, current index 1.1 gives 55 |
| `Portfolio.TotalCollateralValueInEth` | src/mappings/helpers.ts:128-144 | the loop total equals the left-to-right sum of token value × balance over the held ids; an empty list gives 0 |
| `Portfolio.TotalBorrowValueInEth` | src/mappings/helpers.ts:146-168 | zero for an account that never borrowed; otherwise the sum of price × normalised borrow over the held ids |
| `Portfolio.HealthValue` | src/mappings/helpers.ts:170-184 | absent exactly when the account never borrowed; the collateral total when the borrow total is 0; otherwise health × borrow total = collateral total |
| `Portfolio.Health` | src/mappings/helpers.ts:170-184 | the method built from the two loops agrees with `HealthValue` and is absent exactly for an account that never borrowed |
| `Portfolio.CollateralValueOrderIrrelevant` | src/mappings/helpers.ts:136-142 | any reordering of the held ids gives the same collateral total |
| `Portfolio.BorrowValueOrderIrrelevant` | src/mappings/helpers.ts:158-166 | any reordering of the held ids gives the same borrow total; the tables need every id only for an account that has borrowed |
| `Portfolio.CollateralValueSplits` | src/mappings/helpers.ts:136-142 | the collateral total of two concatenated id lists is the sum of their totals |
| `Portfolio.BorrowValueZeroWithoutSnapshots` | src/mappings/helpers.ts:146-168 | if no held position has a borrow snapshot, the borrow total is 0 |
| `Portfolio.CollateralValueNonNegative` | src/mappings/helpers.ts:128-144 | sane markets and non-negative balances give a non-negative collateral total |
| `Portfolio.HealthBelowOneIffUndercollateralised` | src/mappings/helpers.ts:183 | with a positive borrow total, health is below 1 exactly when the collateral total is below the borrow total |
| `Portfolio.NewAccountHasNoHealth` | src/mappings/helpers.ts:176-178 | a freshly created account has no health value, whatever positions are passed |
| `Portfolio.ZeroDebtHealthExample` | src/mappings/helpers.ts:180-181 | positions worth 10 and 5 with no debt give a collateral total of 15, and health reports 15 |
| `Portfolio.RatioHealthExample` | src/mappings/helpers.ts:183 | collateral 30 against a debt of 10 gives health 3 |

## Left out

- Entity persistence (`load`, `save`, the generated schema classes): the store is a record of maps passed in and returned.
- `Bytes.toHexString`: a transaction hash is represented by its hex text.
- SupplyBalanceUnderlying, BorrowBalanceUnderlying, TokenInEth, TotalCollateralValueInEth, TotalBorrowValueInEth, HealthValue, CollateralValueOrderIrrelevant, BorrowValueOrderIrrelevant and CollateralValueSplits: every host `BigDecimal` result is rounded to 34 significant digits. That covers each sum (`plus`), product (`times`) and quotient (`div`). The model's `real` arithmetic is exact, so these members agree with the host only while every intermediate result fits in 34 significant digits. The order and split lemmas hold for exact addition only; rounded addition is not associative.
- The `as Market` / `as AccountCToken` casts that fail on a missing map entry: the aggregators instead require every held id to be in both maps (`Held`). The per-id value functions return 0 for a missing id, but `Held` makes that branch unreachable.
- `BIGDECIMAL_ZERO` is imported from `./constants`, which is not part of this model; it is taken to be 0, the same as `zeroBD`.
- `mantissaFactor`, `cTokenDecimals`, `mantissaFactorBD` and `cTokenDecimalsBD` (lines 16-19) are only used by event handlers that are not part of this model.
- `Market` and `Account` carry only the fields these helpers read or set.
- Monotonicity of `hasBorrowed`: no helper here sets it except `createAccount`, which sets it to false. The borrow handlers that set it to true are not part of this model.

=== FILE: balances.dfy ===
/**
  The balance normaliser: a position's raw token balance and stored borrow
  converted to underlying-asset amounts at the market's current exchange
  rate and borrow index, and the collateral-weighted value of one token.
 */
module Balances {
  import opened Entities
  import opened Repository

  /** Underlying amount a position's cTokens redeem for at the current exchange rate. */
  function SupplyBalanceUnderlying(cToken: AccountCToken, market: Market): (r: real)
    ensures market.exchangeRate != 0.0 ==> r / market.exchangeRate == cToken.cTokenBalance
    ensures market.exchangeRate == 0.0 || cToken.cTokenBalance == 0.0 ==> r == 0.0
    ensures cToken.cTokenBalance >= 0.0 && market.exchangeRate >= 0.0 ==> r >= 0.0
  {
    cToken.cTokenBalance * market.exchangeRate
  }

  /**
    The stored borrow scaled from the position's index snapshot to the
    market's current borrow index. A zero snapshot means no borrow was ever
    recorded and yields zero, so the division never has a zero divisor.
   */
  function BorrowBalanceUnderlying(cToken: AccountCToken, market: Market): (r: real)
    ensures cToken.accountBorrowIndex == 0.0 ==> r == 0.0
    ensures cToken.accountBorrowIndex != 0.0 ==>
      r * cToken.accountBorrowIndex == cToken.storedBorrowBalance * market.borrowIndex
  {
    if cToken.accountBorrowIndex == 0.0 then 0.0
    else cToken.storedBorrowBalance * market.borrowIndex / cToken.accountBorrowIndex
  }

  /** Value of one cToken in the common unit, discounted by the collateral factor. */
  function TokenInEth(market: Market): (r: real)
    ensures market.collateralFactor == 0.0 ==> r == 0.0
    ensures market.collateralFactor == 1.0 ==> r == market.exchangeRate * market.underlyingPrice
  {
    market.collateralFactor * market.exchangeRate * market.underlyingPrice
  }

  /** The market data the protocol guarantees: non-negative rates and price, factor within [0, 1]. */
  predicate SaneMarket(market: Market) {
    && market.exchangeRate >= 0.0
    && market.borrowIndex >= 0.0
    && 0.0 <= market.collateralFactor <= 1.0
    && market.underlyingPrice >= 0.0
  }

  /** Discounted token value lies between zero and the undiscounted value. */
  lemma TokenInEthBounded(market: Market)
    requires SaneMarket(market)
    ensures 0.0 <= TokenInEth(market) <= market.exchangeRate * market.underlyingPrice
  {
    var v := market.exchangeRate * market.underlyingPrice;
    assert v >= 0.0;
    assert TokenInEth(market) == market.collateralFactor * v;
  }

  /**
    A position's collateral contribution is the collateral-factor share of
    its underlying supply, priced in the common unit.
   */
  lemma CollateralIsDiscountedSupply(cToken: AccountCToken, market: Market)
    ensures TokenInEth(market) * cToken.cTokenBalance
         == market.collateralFactor * market.underlyingPrice * SupplyBalanceUnderlying(cToken, market)
  {
  }

  /** At the snapshot index itself no interest has accrued. */
  lemma BorrowBalanceAtSnapshot(cToken: AccountCToken, market: Market)
    requires cToken.accountBorrowIndex != 0.0
    requires market.borrowIndex == cToken.accountBorrowIndex
    ensures BorrowBalanceUnderlying(cToken, market) == cToken.storedBorrowBalance
  {
  }

  /** Interest only adds to debt: a risen index never shrinks a non-negative borrow. */
  lemma BorrowBalanceAccrues(cToken: AccountCToken, market: Market)
    requires 0.0 < cToken.accountBorrowIndex <= market.borrowIndex
    requires cToken.storedBorrowBalance >= 0.0
    ensures BorrowBalanceUnderlying(cToken, market) >= cToken.storedBorrowBalance
  {
    var s, a, b := cToken.storedBorrowBalance, cToken.accountBorrowIndex, market.borrowIndex;
    assert s * b >= s * a;
    assert s * b / a >= s * a / a == s;
  }

  /**
    Normalisation composes: re-snapshotting a position at an intermediate
    index and scaling on from there gives the same balance as scaling once
    from the original snapshot.
   */
  lemma BorrowBalanceCompounds(cToken: AccountCToken, middle: Market, later: Market)
    requires cToken.accountBorrowIndex != 0.0
    requires middle.borrowIndex != 0.0
    ensures var resnapshot := cToken.(storedBorrowBalance := BorrowBalanceUnderlying(cToken, middle),
                                      accountBorrowIndex := middle.borrowIndex);
      BorrowBalanceUnderlying(resnapshot, later) == BorrowBalanceUnderlying(cToken, later)
  {
  }

  /** A freshly created position is worth nothing on either side. */
  lemma FreshPositionHoldsNothing(cTokenStatsID: string, symbol: string, account: string, marketID: string, market: Market)
    ensures var c := CreateAccountCToken(cTokenStatsID, symbol, account, marketID);
      SupplyBalanceUnderlying(c, market) == 0.0 && BorrowBalanceUnderlying(c, market) == 0.0
  {
  }

  /** 100 cTokens at an exchange rate of 0.02 redeem for 2 underlying. */
  lemma SupplyExample(cToken: AccountCToken, market: Market)
    requires cToken.cTokenBalance == 100.0 && market.exchangeRate == 0.02
    ensures SupplyBalanceUnderlying(cToken, market) == 2.0
  {
  }

  /** A borrow of 50 snapshotted at index 1.0 is 55 once the index reaches 1.1. */
  lemma BorrowExample(cToken: AccountCToken, market: Market)
    requires cToken.storedBorrowBalance == 50.0 && cToken.accountBorrowIndex == 1.0
    requires market.borrowIndex == 1.1
    ensures BorrowBalanceUnderlying(cToken, market) == 55.0
  {
  }
}

=== FILE: decimal.dfy ===
/**
  Scale factors for the decimal layer. `BigDecimal` values are modelled as
  Dafny `real` (exact rationals; the host's rounding to 34 significant digits
  is not modelled); a scale factor 10^n is built by repeated multiplication,
  as `exponentToBigDecimal` does.
 */
module Decimal {

  /** The `i32` parameter type of `exponentToBigDecimal` in `helpers.ts`. */
  newtype Int32 = x: int | -0x8000_0000 <= x < 0x8000_0000

  /** Reference definition of 10^n as an exact decimal. */
  function Pow10(n: nat): (r: real)
    ensures r >= 1.0
  {
    if n == 0 then 1.0 else 10.0 * Pow10(n - 1)
  }

  /**
    Builds 10^decimals by multiplying 1 by 10, `decimals` times. A negative
    exponent runs the loop zero times, so the result is 1.
   */
  method ExponentToBigDecimal(decimals: Int32) returns (bd: real)
    ensures decimals >= 0 ==> bd == Pow10(decimals as nat)
    ensures decimals <= 0 ==> bd == 1.0
  {
    bd := 1.0;
    var i: Int32 := 0;
    while i < decimals
      invariant 0 <= i
      invariant i <= decimals || i == 0
      invariant bd == Pow10(i as nat)
    {
      bd := bd * 10.0;
      i := i + 1;
    }
  }

  /** Exponent law: scale factors compose by multiplication. */
  lemma {:induction false} Pow10Add(a: nat, b: nat)
    ensures Pow10(a + b) == Pow10(a) * Pow10(b)
    decreases b
  {
    if b > 0 {
      Pow10Add(a, b - 1);
      calc {
        Pow10(a + b);
        10.0 * Pow10(a + b - 1);
        10.0 * (Pow10(a) * Pow10(b - 1));
        Pow10(a) * (10.0 * Pow10(b - 1));
        Pow10(a) * Pow10(b);
      }
    }
  }

  /** A larger exponent gives a strictly larger scale factor. */
  lemma {:induction false} Pow10StrictlyIncreasing(a: nat, b: nat)
    requires a < b
    ensures Pow10(a) < Pow10(b)
    decreases b
  {
    if a < b - 1 {
      Pow10StrictlyIncreasing(a, b - 1);
    }
  }
}

=== FILE: entities.dfy ===
/**
  The entities the accounting helpers read and write. Decimal amounts are
  exact `real`s; `BigInt` block numbers, timestamps and log indices are `int`s.
 */
module Entities {

  /** A protocol participant. */
  datatype Account = Account(
    id: string,
    countLiquidated: int,
    countLiquidator: int,
    hasBorrowed: bool)

  /** One account's position in one market (supply side and borrow side). */
  datatype AccountCToken = AccountCToken(
    id: string,
    symbol: string,
    market: string,
    account: string,
    accrualBlockNumber: int,
    cTokenBalance: real,
    totalUnderlyingSupplied: real,
    totalUnderlyingRedeemed: real,
    accountBorrowIndex: real,
    totalUnderlyingBorrowed: real,
    totalUnderlyingRepaid: real,
    storedBorrowBalance: real,
    enteredMarket: bool)

  /** Audit-log entry for one event touching one position. `txHash` is the hash's hex text. */
  datatype AccountCTokenTransaction = AccountCTokenTransaction(
    id: string,
    account: string,
    txHash: string,
    timestamp: int,
    block: int,
    logIndex: int)

  /** The market fields the helpers read; markets are maintained elsewhere. */
  datatype Market = Market(
    id: string,
    exchangeRate: real,
    borrowIndex: real,
    collateralFactor: real,
    underlyingPrice: real)

  /** The entity store, one id-keyed table per saved entity type. */
  datatype Store = Store(
    accounts: map<string, Account>,
    cTokens: map<string, AccountCToken>,
    transactions: map<string, AccountCTokenTransaction>)
}

=== FILE: keys.dfy ===
/**
  Composite entity identifiers. A position is keyed `marketID-accountID` and a
  transaction record `accountID-txHash-logIndex`, where the log index is
  rendered in decimal the way `BigInt.toString` renders it.
 */
module Keys {

  predicate IsDigit(c: char) {
    '0' <= c <= '9'
  }

  function DigitChar(d: nat): (c: char)
    requires d < 10
    ensures IsDigit(c)
  {
    ('0' as int + d) as char
  }

  /** Value of a decimal digit; any other character reads as 0. */
  function DigitValue(c: char): (d: nat)
    ensures d < 10
  {
    if IsDigit(c) then c as int - '0' as int else 0
  }

  /** Decimal rendering of a natural number, most significant digit first, no leading zeros. */
  function NatToString(n: nat): (s: string)
    ensures |s| >= 1
    ensures forall i :: 0 <= i < |s| ==> IsDigit(s[i])
    decreases n
  {
    if n < 10 then [DigitChar(n)] else NatToString(n / 10) + [DigitChar(n % 10)]
  }

  /** Decimal rendering of an integer: a leading '-' for negative values. */
  function IntToString(n: int): (s: string)
    ensures |s| >= 1
    ensures s[0] == '-' <==> n < 0
  {
    if n < 0 then "-" + NatToString(-n) else NatToString(n)
  }

  /** Reads a string of decimal digits back into a number. */
  function ParseNat(s: string): nat
    decreases |s|
  {
    if |s| == 0 then 0 else ParseNat(s[..|s| - 1]) * 10 + DigitValue(s[|s| - 1])
  }

  /** Reads an optionally '-'-prefixed decimal string back into an integer. */
  function ParseInt(s: string): int {
    if |s| > 0 && s[0] == '-' then 0 - ParseNat(s[1..]) else ParseNat(s)
  }

  lemma {:induction false} ParseNatRoundTrip(n: nat)
    ensures ParseNat(NatToString(n)) == n
    decreases n
  {
    if n >= 10 {
      var s := NatToString(n);
      assert s[..|s| - 1] == NatToString(n / 10);
      ParseNatRoundTrip(n / 10);
      assert DigitValue(s[|s| - 1]) == n % 10;
    }
  }

  /** Parsing undoes rendering, for every integer. */
  lemma IntRoundTrip(n: int)
    ensures ParseInt(IntToString(n)) == n
  {
    if n < 0 {
      assert IntToString(n)[1..] == NatToString(-n);
      ParseNatRoundTrip(-n);
    } else {
      ParseNatRoundTrip(n);
    }
  }

  /** Distinct integers render to distinct strings. */
  lemma IntToStringInjective(a: int, b: int)
    requires IntToString(a) == IntToString(b)
    ensures a == b
  {
    IntRoundTrip(a);
    IntRoundTrip(b);
  }

  /** Identifier of the position of `accountID` in market `marketID`. */
  function PositionKey(marketID: string, accountID: string): (k: string)
    ensures |k| == |marketID| + 1 + |accountID|
    ensures k[..|marketID|] == marketID && k[|marketID|] == '-'
    ensures k[|marketID| + 1..] == accountID
  {
    marketID + "-" + accountID
  }

  /**
    Within one market, distinct accounts get distinct position ids. Across
    markets ids separate only when market ids contain no '-':
    `PositionKey("a-b", "c") == PositionKey("a", "b-c")`. Market ids are
    expected to contain none.
   */
  lemma PositionKeySeparatesAccount(marketID: string, a: string, b: string)
    requires PositionKey(marketID, a) == PositionKey(marketID, b)
    ensures a == b
  {
    assert a == PositionKey(marketID, a)[|marketID| + 1..];
  }

  /** Identifier of the transaction record for one log entry of one transaction. */
  function TransactionKey(accountID: string, txHash: string, logIndex: int): (k: string)
    ensures |k| == |accountID| + |txHash| + 2 + |IntToString(logIndex)|
    ensures k[..|accountID|] == accountID && k[|accountID|] == '-'
    ensures k[|accountID| + 1..|accountID| + 1 + |txHash|] == txHash
    ensures k[|accountID| + 1 + |txHash|] == '-'
    ensures k[|accountID| + 2 + |txHash|..] == IntToString(logIndex)
  {
    accountID + "-" + txHash + "-" + IntToString(logIndex)
  }

  /**
    Two log entries of the same transaction for the same owner never share a
    record key, so both get recorded.
   */
  lemma TransactionKeySeparatesLogIndex(accountID: string, txHash: string, i: int, j: int)
    requires TransactionKey(accountID, txHash, i) == TransactionKey(accountID, txHash, j)
    ensures i == j
  {
    IntToStringInjective(i, j);
  }
}

=== FILE: portfolio.dfy ===
/**
  Portfolio aggregation and health. An account's held positions are given as
  a list of ids, each looked up in a market table and a position table.
 */
module Portfolio {
  import opened Wrappers
  import opened Entities
  import opened Repository
  import opened Sums
  import opened Balances

  /** Every held id has a market and a position; the casts in `helpers.ts` fail on a missing one. */
  predicate Held(ids: seq<string>, markets: map<string, Market>, tokens: map<string, AccountCToken>) {
    forall i :: 0 <= i < |ids| ==> ids[i] in markets && ids[i] in tokens
  }

  /** Collateral value of the position held under `id`. */
  function CollateralOf(markets: map<string, Market>, tokens: map<string, AccountCToken>, id: string): real {
    if id in markets && id in tokens then TokenInEth(markets[id]) * tokens[id].cTokenBalance else 0.0
  }

  /** Borrow value of the position held under `id`, priced in the common unit. */
  function BorrowOf(markets: map<string, Market>, tokens: map<string, AccountCToken>, id: string): real {
    if id in markets && id in tokens
    then markets[id].underlyingPrice * BorrowBalanceUnderlying(tokens[id], markets[id])
    else 0.0
  }

  function CollateralTerm(markets: map<string, Market>, tokens: map<string, AccountCToken>): string -> real {
    id => CollateralOf(markets, tokens, id)
  }

  function BorrowTerm(markets: map<string, Market>, tokens: map<string, AccountCToken>): string -> real {
    id => BorrowOf(markets, tokens, id)
  }

  /** Reference value: total collateral value of the held positions. */
  function CollateralValue(ids: seq<string>, markets: map<string, Market>, tokens: map<string, AccountCToken>): real
    requires Held(ids, markets, tokens)
  {
    SumBy(ids, CollateralTerm(markets, tokens))
  }

  /** Reference value: total borrow value, zero for an account that never borrowed. */
  function BorrowValue(account: Account, ids: seq<string>, markets: map<string, Market>, tokens: map<string, AccountCToken>): real
    requires account.hasBorrowed ==> Held(ids, markets, tokens)
  {
    if !account.hasBorrowed then 0.0 else SumBy(ids, BorrowTerm(markets, tokens))
  }

  /**
    Reference value of the health ratio: absent for an account that never
    borrowed, the raw collateral value when the debt is zero, and collateral
    over debt otherwise.
   */
  function HealthValue(account: Account, ids: seq<string>, markets: map<string, Market>, tokens: map<string, AccountCToken>): (r: Option<real>)
    requires account.hasBorrowed ==> Held(ids, markets, tokens)
    ensures r.None? <==> !account.hasBorrowed
    ensures account.hasBorrowed && BorrowValue(account, ids, markets, tokens) == 0.0 ==>
      r == Some(CollateralValue(ids, markets, tokens))
    ensures account.hasBorrowed && BorrowValue(account, ids, markets, tokens) != 0.0 ==>
      r.Some? && r.value * BorrowValue(account, ids, markets, tokens) == CollateralValue(ids, markets, tokens)
  {
    if !account.hasBorrowed then None
    else
      var totalBorrow := BorrowValue(account, ids, markets, tokens);
      if totalBorrow == 0.0 then Some(CollateralValue(ids, markets, tokens))
      else Some(CollateralValue(ids, markets, tokens) / totalBorrow)
  }

  /** Sums the collateral value of the held positions, one id at a time. */
  method TotalCollateralValueInEth(ids: seq<string>, markets: map<string, Market>, tokens: map<string, AccountCToken>)
    returns (value: real)
    requires Held(ids, markets, tokens)
    ensures value == CollateralValue(ids, markets, tokens)
    ensures |ids| == 0 ==> value == 0.0
  {
    value := 0.0;
    var i := 0;
    while i < |ids|
      invariant 0 <= i <= |ids|
      invariant value == SumBy(ids[..i], CollateralTerm(markets, tokens))
    {
      value := value + TokenInEth(markets[ids[i]]) * tokens[ids[i]].cTokenBalance;
      assert ids[..i + 1][..i] == ids[..i];
      i := i + 1;
    }
    assert ids[..|ids|] == ids;
  }

  /** Sums the borrow value of the held positions; skips the loop for an account that never borrowed. */
  method TotalBorrowValueInEth(account: Account, ids: seq<string>, markets: map<string, Market>, tokens: map<string, AccountCToken>)
    returns (value: real)
    requires account.hasBorrowed ==> Held(ids, markets, tokens)
    ensures value == BorrowValue(account, ids, markets, tokens)
    ensures !account.hasBorrowed ==> value == 0.0
  {
    if !account.hasBorrowed {
      return 0.0;
    }
    value := 0.0;
    var i := 0;
    while i < |ids|
      invariant 0 <= i <= |ids|
      invariant value == SumBy(ids[..i], BorrowTerm(markets, tokens))
    {
      var market := markets[ids[i]];
      value := value + market.underlyingPrice * BorrowBalanceUnderlying(tokens[ids[i]], market);
      assert ids[..i + 1][..i] == ids[..i];
      i := i + 1;
    }
    assert ids[..|ids|] == ids;
  }

  /** The health ratio computed from the two aggregation loops. */
  method Health(account: Account, ids: seq<string>, markets: map<string, Market>, tokens: map<string, AccountCToken>)
    returns (h: Option<real>)
    requires account.hasBorrowed ==> Held(ids, markets, tokens)
    ensures h == HealthValue(account, ids, markets, tokens)
    ensures h.None? <==> !account.hasBorrowed
  {
    if !account.hasBorrowed {
      return None;
    }
    var totalBorrow := TotalBorrowValueInEth(account, ids, markets, tokens);
    var totalCollateral := TotalCollateralValueInEth(ids, markets, tokens);
    if totalBorrow == 0.0 {
      return Some(totalCollateral);
    }
    return Some(totalCollateral / totalBorrow);
  }

  /** Reordering the held ids keeps every one of them present in both tables. */
  lemma HeldPermutation(ids: seq<string>, ids': seq<string>, markets: map<string, Market>, tokens: map<string, AccountCToken>)
    requires Held(ids, markets, tokens)
    requires multiset(ids) == multiset(ids')
    ensures Held(ids', markets, tokens)
  {
    forall j | 0 <= j < |ids'|
      ensures ids'[j] in markets && ids'[j] in tokens
    {
      assert ids'[j] in multiset(ids);
    }
  }

  /** The collateral total does not depend on the order the positions are listed in. */
  lemma CollateralValueOrderIrrelevant(ids: seq<string>, ids': seq<string>, markets: map<string, Market>, tokens: map<string, AccountCToken>)
    requires Held(ids, markets, tokens)
    requires multiset(ids) == multiset(ids')
    ensures Held(ids', markets, tokens)
    ensures CollateralValue(ids', markets, tokens) == CollateralValue(ids, markets, tokens)
  {
    HeldPermutation(ids, ids', markets, tokens);
    SumByPermutation(ids, ids', CollateralTerm(markets, tokens));
  }

  /** The borrow total does not depend on the order the positions are listed in. */
  lemma BorrowValueOrderIrrelevant(account: Account, ids: seq<string>, ids': seq<string>, markets: map<string, Market>, tokens: map<string, AccountCToken>)
    requires account.hasBorrowed ==> Held(ids, markets, tokens)
    requires multiset(ids) == multiset(ids')
    ensures account.hasBorrowed ==> Held(ids', markets, tokens)
    ensures BorrowValue(account, ids', markets, tokens) == BorrowValue(account, ids, markets, tokens)
  {
    if account.hasBorrowed {
      HeldPermutation(ids, ids', markets, tokens);
      SumByPermutation(ids, ids', BorrowTerm(markets, tokens));
    }
  }

  /** Splitting a portfolio in two splits its collateral total. */
  lemma CollateralValueSplits(ids: seq<string>, ids': seq<string>, markets: map<string, Market>, tokens: map<string, AccountCToken>)
    requires Held(ids, markets, tokens) && Held(ids', markets, tokens)
    ensures Held(ids + ids', markets, tokens)
    ensures CollateralValue(ids + ids', markets, tokens)
         == CollateralValue(ids, markets, tokens) + CollateralValue(ids', markets, tokens)
  {
    SumByAppend(ids, ids', CollateralTerm(markets, tokens));
  }

  /**
    An account whose positions carry no borrow snapshot owes nothing, even
    when it has borrowed before: it is in the fully repaid state.
   */
  lemma BorrowValueZeroWithoutSnapshots(account: Account, ids: seq<string>, markets: map<string, Market>, tokens: map<string, AccountCToken>)
    requires Held(ids, markets, tokens)
    requires forall i :: 0 <= i < |ids| ==> tokens[ids[i]].accountBorrowIndex == 0.0
    ensures BorrowValue(account, ids, markets, tokens) == 0.0
  {
    if account.hasBorrowed {
      forall i | 0 <= i < |ids|
        ensures BorrowTerm(markets, tokens)(ids[i]) == 0.0
      {
        var id := ids[i];
        assert id in markets && id in tokens;
        var owed := BorrowBalanceUnderlying(tokens[id], markets[id]);
        assert owed == 0.0;
        assert markets[id].underlyingPrice * owed == 0.0;
        assert BorrowOf(markets, tokens, id) == markets[id].underlyingPrice * owed;
      }
      SumByZero(ids, BorrowTerm(markets, tokens));
    }
  }

  /** Sane markets and non-negative balances give a non-negative collateral total. */
  lemma CollateralValueNonNegative(ids: seq<string>, markets: map<string, Market>, tokens: map<string, AccountCToken>)
    requires Held(ids, markets, tokens)
    requires forall i :: 0 <= i < |ids| ==> SaneMarket(markets[ids[i]]) && tokens[ids[i]].cTokenBalance >= 0.0
    ensures CollateralValue(ids, markets, tokens) >= 0.0
  {
    forall i | 0 <= i < |ids|
      ensures CollateralTerm(markets, tokens)(ids[i]) >= 0.0
    {
      TokenInEthBounded(markets[ids[i]]);
    }
    SumByNonNegative(ids, CollateralTerm(markets, tokens));
  }

  /**
    With outstanding debt, health falls below 1 exactly when the weighted
    collateral is worth less than the debt.
   */
  lemma HealthBelowOneIffUndercollateralised(account: Account, ids: seq<string>, markets: map<string, Market>, tokens: map<string, AccountCToken>)
    requires account.hasBorrowed && Held(ids, markets, tokens)
    requires BorrowValue(account, ids, markets, tokens) > 0.0
    ensures HealthValue(account, ids, markets, tokens).Some?
    ensures HealthValue(account, ids, markets, tokens).value < 1.0
        <==> CollateralValue(ids, markets, tokens) < BorrowValue(account, ids, markets, tokens)
  {
    var b := BorrowValue(account, ids, markets, tokens);
    var c := CollateralValue(ids, markets, tokens);
    assert HealthValue(account, ids, markets, tokens) == Some(c / b);
    RatioBelowOne(c, b);
  }

  /** Dividing by a positive amount gives less than 1 exactly when the dividend is the smaller. */
  lemma RatioBelowOne(c: real, b: real)
    requires b > 0.0
    ensures c / b < 1.0 <==> c < b
  {
    assert c / b * b == c;
  }

  /** An account just created has no health value, whatever positions are passed. */
  lemma NewAccountHasNoHealth(store: Store, accountID: string, ids: seq<string>, markets: map<string, Market>, tokens: map<string, AccountCToken>)
    ensures HealthValue(CreateAccount(store, accountID).value, ids, markets, tokens) == None
  {
  }

  /**
    Two positions worth 10 and 5 in collateral, no outstanding debt on an
    account that has borrowed: the collateral total is 15 and health reports
    that total.
   */
  lemma ZeroDebtHealthExample()
    ensures var a := AccountCToken("a", "cA", "a", "acct", 0, 10.0, 0.0, 0.0, 0.0, 0.0, 0.0, 0.0, true);
      var b := AccountCToken("b", "cB", "b", "acct", 0, 5.0, 0.0, 0.0, 0.0, 0.0, 0.0, 0.0, true);
      var markets := map["a" := Market("a", 1.0, 1.0, 1.0, 1.0), "b" := Market("b", 1.0, 1.0, 1.0, 1.0)];
      var tokens := map["a" := a, "b" := b];
      var account := Account("acct", 0, 0, true);
      && CollateralValue(["a", "b"], markets, tokens) == 15.0
      && HealthValue(account, ["a", "b"], markets, tokens) == Some(15.0)
  {
    var a := AccountCToken("a", "cA", "a", "acct", 0, 10.0, 0.0, 0.0, 0.0, 0.0, 0.0, 0.0, true);
    var b := AccountCToken("b", "cB", "b", "acct", 0, 5.0, 0.0, 0.0, 0.0, 0.0, 0.0, 0.0, true);
    var markets := map["a" := Market("a", 1.0, 1.0, 1.0, 1.0), "b" := Market("b", 1.0, 1.0, 1.0, 1.0)];
    var tokens := map["a" := a, "b" := b];
    var ids := ["a", "b"];
    assert ids[..1] == ["a"] && ids[..1][..0] == [];
    assert CollateralOf(markets, tokens, "a") == 10.0;
    assert CollateralOf(markets, tokens, "b") == 5.0;
    assert SumBy(["a"], CollateralTerm(markets, tokens)) == 10.0;
    assert CollateralValue(ids, markets, tokens) == 15.0;
    assert SumBy(ids, BorrowTerm(markets, tokens)) == 0.0;
  }

  /** Collateral 30 against debt 10 gives health 3. */
  lemma RatioHealthExample()
    ensures var p := AccountCToken("p", "cP", "p", "acct", 0, 30.0, 0.0, 0.0, 1.0, 0.0, 0.0, 10.0, true);
      var markets := map["p" := Market("p", 1.0, 1.0, 1.0, 1.0)];
      var tokens := map["p" := p];
      var account := Account("acct", 0, 0, true);
      HealthValue(account, ["p"], markets, tokens) == Some(3.0)
  {
  }
}

=== FILE: repository.dfy ===
/**
  Get-or-create logic over the entity store: fresh records with fixed
  defaults, an idempotent transaction log, and the per-event position touch.
 */
module Repository {
  import opened Entities
  import opened Keys

  /** A store together with the record an operation hands back. */
  datatype Saved<T> = Saved(store: Store, value: T)

  /**
    Every counter and amount of a position is zero (`zeroBD` in `helpers.ts`)
    and it is not entered as collateral.
   */
  predicate Pristine(c: AccountCToken) {
    && c.accrualBlockNumber == 0
    && c.cTokenBalance == 0.0
    && c.totalUnderlyingSupplied == 0.0
    && c.totalUnderlyingRedeemed == 0.0
    && c.accountBorrowIndex == 0.0
    && c.totalUnderlyingBorrowed == 0.0
    && c.totalUnderlyingRepaid == 0.0
    && c.storedBorrowBalance == 0.0
    && !c.enteredMarket
  }

  /** A new position record; it is not saved. */
  function CreateAccountCToken(cTokenStatsID: string, symbol: string, account: string, marketID: string): (c: AccountCToken)
    ensures c.id == cTokenStatsID
    ensures c.symbol == symbol && c.market == marketID && c.account == account
    ensures Pristine(c)
  {
    AccountCToken(cTokenStatsID, symbol, marketID, account, 0, 0.0, 0.0, 0.0, 0.0, 0.0, 0.0, 0.0, false)
  }

  /**
    A new account, saved under its id. The save is unconditional: an account
    already stored under that id is replaced by the fresh one.
   */
  function CreateAccount(store: Store, accountID: string): (r: Saved<Account>)
    ensures r.value.id == accountID
    ensures r.value.countLiquidated == 0 && r.value.countLiquidator == 0 && !r.value.hasBorrowed
    ensures accountID in r.store.accounts && r.store.accounts[accountID] == r.value
    ensures r.store.accounts.Keys == store.accounts.Keys + {accountID}
    ensures forall id :: id in store.accounts && id != accountID ==> r.store.accounts[id] == store.accounts[id]
    ensures r.store.cTokens == store.cTokens && r.store.transactions == store.transactions
  {
    var account := Account(accountID, 0, 0, false);
    Saved(store.(accounts := store.accounts[accountID := account]), account)
  }

  /**
    Loads the transaction record keyed `accountID-txHash-logIndex`, creating
    and saving it when absent. An existing record wins: the store is left
    as it is and the stored record is returned, whatever the other arguments.
   */
  function GetOrCreateAccountCTokenTransaction(
    store: Store, accountID: string, txHash: string, timestamp: int, block: int, logIndex: int
  ): (r: Saved<AccountCTokenTransaction>)
    ensures var key := TransactionKey(accountID, txHash, logIndex);
      && key in r.store.transactions && r.store.transactions[key] == r.value
      && (key in store.transactions ==> r.store == store)
      && (key !in store.transactions ==>
            && r.value.id == key
            && r.value.account == accountID && r.value.txHash == txHash
            && r.value.timestamp == timestamp && r.value.block == block && r.value.logIndex == logIndex)
      && r.store.transactions.Keys == store.transactions.Keys + {key}
      && |r.store.transactions| == |store.transactions| + (if key in store.transactions then 0 else 1)
    ensures forall k :: k in store.transactions ==> r.store.transactions[k] == store.transactions[k]
    ensures r.store.accounts == store.accounts && r.store.cTokens == store.cTokens
  {
    var key := TransactionKey(accountID, txHash, logIndex);
    if key in store.transactions then
      Saved(store, store.transactions[key])
    else
      var transaction := AccountCTokenTransaction(key, accountID, txHash, timestamp, block, logIndex);
      Saved(store.(transactions := store.transactions[key := transaction]), transaction)
  }

  /**
    The common step of every position event: load or create the position
    `marketID-accountID`, log the event against it, and stamp the event's
    block as the position's accrual block. The position is returned for the
    caller to finish and save; this step saves only the transaction record.
   */
  function UpdateCommonCTokenStats(
    store: Store, marketID: string, marketSymbol: string, accountID: string,
    txHash: string, timestamp: int, blockNumber: int, logIndex: int
  ): (r: Saved<AccountCToken>)
    ensures var id := PositionKey(marketID, accountID);
      && r.value.accrualBlockNumber == blockNumber
      && (id in store.cTokens ==>
            r.value.(accrualBlockNumber := store.cTokens[id].accrualBlockNumber) == store.cTokens[id])
      && (id !in store.cTokens ==>
            && r.value.id == id && r.value.symbol == marketSymbol
            && r.value.market == marketID && r.value.account == accountID
            && Pristine(r.value.(accrualBlockNumber := 0)))
      && TransactionKey(id, txHash, logIndex) in r.store.transactions
      && (TransactionKey(id, txHash, logIndex) !in store.transactions ==>
            r.store.transactions[TransactionKey(id, txHash, logIndex)]
              == AccountCTokenTransaction(TransactionKey(id, txHash, logIndex), id, txHash, timestamp, blockNumber, logIndex))
      && r.store.transactions.Keys == store.transactions.Keys + {TransactionKey(id, txHash, logIndex)}
    ensures forall k :: k in store.transactions ==> r.store.transactions[k] == store.transactions[k]
    ensures r.store.cTokens == store.cTokens && r.store.accounts == store.accounts
  {
    var id := PositionKey(marketID, accountID);
    var stats := if id in store.cTokens then store.cTokens[id]
                 else CreateAccountCToken(id, marketSymbol, accountID, marketID);
    var logged := GetOrCreateAccountCTokenTransaction(store, id, txHash, timestamp, blockNumber, logIndex);
    Saved(logged.store, stats.(accrualBlockNumber := blockNumber))
  }

  /**
    Replaying a log entry is a no-op: a second call with the same key, even
    with a different timestamp or block, returns the first call's store and
    record.
   */
  lemma TransactionReplayIsNoOp(
    store: Store, accountID: string, txHash: string,
    timestamp: int, block: int, timestamp': int, block': int, logIndex: int)
    ensures var first := GetOrCreateAccountCTokenTransaction(store, accountID, txHash, timestamp, block, logIndex);
      GetOrCreateAccountCTokenTransaction(first.store, accountID, txHash, timestamp', block', logIndex) == first
  {
  }

  /**
    Two log entries of one transaction are two records: recording the second
    keeps the first and adds one more.
   */
  lemma DistinctLogEntriesBothRecorded(
    store: Store, accountID: string, txHash: string, timestamp: int, block: int, i: int, j: int)
    requires i != j
    ensures var first := GetOrCreateAccountCTokenTransaction(store, accountID, txHash, timestamp, block, i);
      var second := GetOrCreateAccountCTokenTransaction(first.store, accountID, txHash, timestamp, block, j);
      && TransactionKey(accountID, txHash, i) in second.store.transactions
      && second.store.transactions[TransactionKey(accountID, txHash, i)] == first.value
      && TransactionKey(accountID, txHash, j) in second.store.transactions
      && var kj := TransactionKey(accountID, txHash, j);
         second.store.transactions[kj]
           == (if kj in store.transactions then store.transactions[kj]
               else AccountCTokenTransaction(kj, accountID, txHash, timestamp, block, j))
  {
    if TransactionKey(accountID, txHash, i) == TransactionKey(accountID, txHash, j) {
      TransactionKeySeparatesLogIndex(accountID, txHash, i, j);
    }
  }

  /**
    Processing the same event twice yields the same position (field for
    field) and the same store: the position is never duplicated, the log
    entry is recorded once.
   */
  lemma UpdateReplayIsStable(
    store: Store, marketID: string, marketSymbol: string, accountID: string,
    txHash: string, timestamp: int, blockNumber: int, logIndex: int)
    ensures var first := UpdateCommonCTokenStats(store, marketID, marketSymbol, accountID, txHash, timestamp, blockNumber, logIndex);
      UpdateCommonCTokenStats(first.store, marketID, marketSymbol, accountID, txHash, timestamp, blockNumber, logIndex) == first
  {
  }
}

=== FILE: sums.dfy ===
/**
  Left-to-right sums over a list of ids, the shape of the aggregation loops:
  start at zero and add one term per id, in list order.
 */
module Sums {

  /** f(xs[0]) + f(xs[1]) + ... accumulated from the left, as the loops do. */
  function SumBy<T>(xs: seq<T>, f: T -> real): real
    decreases |xs|
  {
    if |xs| == 0 then 0.0 else SumBy(xs[..|xs| - 1], f) + f(xs[|xs| - 1])
  }

  /** The sum over a concatenation splits into the two sums. */
  lemma {:induction false} SumByAppend<T>(xs: seq<T>, ys: seq<T>, f: T -> real)
    ensures SumBy(xs + ys, f) == SumBy(xs, f) + SumBy(ys, f)
    decreases |ys|
  {
    if |ys| == 0 {
      assert xs + ys == xs;
    } else {
      var ys' := ys[..|ys| - 1];
      assert (xs + ys)[..|xs + ys| - 1] == xs + ys';
      SumByAppend(xs, ys', f);
    }
  }

  /** The order of the ids does not matter: a permutation has the same sum. */
  lemma {:induction false} SumByPermutation<T>(xs: seq<T>, ys: seq<T>, f: T -> real)
    requires multiset(xs) == multiset(ys)
    ensures SumBy(xs, f) == SumBy(ys, f)
    decreases |xs|
  {
    if |xs| == 0 {
      assert |ys| == |multiset(ys)| == 0;
    } else {
      var x := xs[|xs| - 1];
      var xs' := xs[..|xs| - 1];
      assert xs == xs' + [x];
      assert x in multiset(ys);
      var k :| 0 <= k < |ys| && ys[k] == x;
      var ys' := ys[..k] + ys[k + 1..];
      assert ys == ys[..k] + [x] + ys[k + 1..];
      assert multiset(xs') == multiset(ys') by {
        assert multiset(xs) == multiset(xs') + multiset{x};
        assert multiset(ys) == multiset(ys') + multiset{x};
        assert multiset(xs') == multiset(xs) - multiset{x};
        assert multiset(ys') == multiset(ys) - multiset{x};
      }
      SumByPermutation(xs', ys', f);
      SumByAppend(ys[..k] + [x], ys[k + 1..], f);
      SumByAppend(ys[..k], [x], f);
      SumByAppend(ys[..k], ys[k + 1..], f);
      assert [x][..0] == [];
    }
  }

  /** A sum of zero terms is zero. */
  lemma {:induction false} SumByZero<T>(xs: seq<T>, f: T -> real)
    requires forall i :: 0 <= i < |xs| ==> f(xs[i]) == 0.0
    ensures SumBy(xs, f) == 0.0
    decreases |xs|
  {
    if |xs| > 0 {
      SumByZero(xs[..|xs| - 1], f);
    }
  }

  /** A sum of non-negative terms is non-negative. */
  lemma {:induction false} SumByNonNegative<T>(xs: seq<T>, f: T -> real)
    requires forall i :: 0 <= i < |xs| ==> f(xs[i]) >= 0.0
    ensures SumBy(xs, f) >= 0.0
    decreases |xs|
  {
    if |xs| > 0 {
      SumByNonNegative(xs[..|xs| - 1], f);
    }
  }
}

=== FILE: wrappers.dfy ===
/** The optional value used where the subgraph returns `null`. */
module Wrappers {

  /** `None` stands for an absent result; `Some(v)` carries a value. */
  datatype Option<+T> = None | Some(value: T)
}
